=== FILE: README.md ===
# Grid-cleaning simulation in Dafny

This project models the two cleaning simulations `robot_limpieza.py` and
`servidor.py` as pure state machines over a finite grid. Both are built on Mesa.

- **Bounded grid** (`robot_limpieza.py`, module `RobotLimpieza`). A
  `RobotModel` builds a `width × height` grid. Exactly `num_dirty_cells`
  distinct coordinates start dirty (`estado = 1`) and every other cell is clean
  (`estado = 0`). All `RobotLimpieza` agents start at (1, 1). When an agent is
  activated on a dirty cell, it cleans that cell. Otherwise it moves to a
  random in-bounds Moore neighbour. `RobotModel.step` has two branches. If the
  budget `time_ejection` is spent or no dirty cell is left, it records
  `final_dirty_cells` and sets `running` to false. Otherwise it runs one sweep
  and updates `time_ejection`, `time` and `movements`.
- **Torus** (`servidor.py`, module `Servidor`). The `estado` encoding is
  inverted: 0 means dirty and 1 means clean. A `CleanerAgent` first cleans its
  cell if it is dirty. It then always moves to a Moore neighbour, wrapped around
  both edges. `CleaningModel.step` runs one sweep and advances `current_time`
  while `current_time < time_limit`. It never stops early.

Shared pieces live in two more modules:

- `Grid` holds coordinates, both Moore neighbourhoods, the cell store and cell
  counting. The cell store is a total map from each coordinate to its
  `estado`.
- `Scheduler` holds the random input of `RandomActivation`: one permutation of
  the agent ids per sweep, with one draw per activation, and the proof that such
  an order activates every agent. The sweep itself is `RobotLimpieza.Sweep` and
  `Servidor.Sweep`. There the agents act one after another, and each one sees
  the changes made by the agents before it.

Randomness is an input. Each call takes its random draws as arguments:

- the position draws of the dirty-cell loop;
- the coin for each torus cell;
- one activation order for each sweep;
- one draw for each activation's `random.choice`.

A draw is an arbitrary natural number k. `random.choice(xs)` becomes
`xs[k % |xs|]` and `randrange(n)` becomes `k % n`. For the values a real
generator produces (always below n), these give the same result. Every operation
is a function, so two runs given the same parameters and the same draws reach
the same states.

Three points of the code's behaviour are easy to misread:

- **Movement counter.** `movements` grows by `num_agents` on every sweep,
  whether an agent moved or cleaned (robot_limpieza.py:114).
  `StepMovementsCountActivations` states what it counts: the agents that moved
  plus the cells that were cleaned.
- **When the model stops.** The terminal branch is a separate call, so a model
  that stays dirty sweeps T times and stops on call T + 1.
  `RunKeepsRunning` and `RunTerminates` state the two halves. So in the 5×5,
  one-agent, all-dirty, budget-3 scenario, `running` is still true after 3
  calls.
- **No validation.** The constructors validate nothing. The model requires
  `width, height >= 2`, because the code places every agent at (1, 1). The
  torus model requires `width, height >= 3`.

## Model

| member | source | states |
|---|---|---|
| Grid.CoordsCard | robot_limpieza.py:60-64 | the grid the constructor walks has exactly width × height coordinates |
| Grid.Choice | robot_limpieza.py:17 | `random.choice` returns an element of the list, and the k-th one for an in-range draw k |
| Grid.BoundedNeighbourhood | robot_limpieza.py:12-18 | the candidate moves are exactly the in-bounds cells adjacent to the agent (the agent's own cell excluded), each listed once; for an in-bounds agent on a grid of sides >= 2 there is at least one |
| Grid.Wrap | servidor.py:42 | wrapping a coordinate on the torus always yields an in-bounds coordinate |
| Grid.TorusNeighbourhood | servidor.py:32-35 | on a torus of sides >= 3 the candidate moves are eight distinct in-bounds cells, each adjacent to the agent around the wrapped edges and none equal to it |
| Grid.TorusNeighbourhoodComplete | servidor.py:32-33 | conversely every in-bounds cell adjacent to the agent on the torus is a candidate move |
| Grid.CountPartition | robot_limpieza.py:80-93 | when every cell holds 0 or 1, the cells counted with state 0 and with state 1 add up to width × height |
| Grid.CountAfterWrite | robot_limpieza.py:24-25 | writing one cell changes each state count by at most one: the old state loses it, the new state gains it |
| Grid.CountBound | robot_limpieza.py:88-93 | a count over the grid never exceeds width × height |
| Grid.StartAgents | robot_limpieza.py:66-71 | `range(num_agents)` creates max(num_agents, 0) agents, each at (1, 1) |
| Scheduler.EveryAgentActivated | robot_limpieza.py:111 | a sweep over a shuffled id list activates every agent (each exactly once) |
| RobotLimpieza.CountDirtyCells | robot_limpieza.py:88-93 | the dirty count is at most width × height and is zero exactly when every cell is clean |
| RobotLimpieza.CountCleanCells | robot_limpieza.py:80-86 | the clean count is width × height minus the dirty count |
| RobotLimpieza.DrawCoord | robot_limpieza.py:56-57 | a position draw is an in-bounds coordinate, the drawn one when the draw is in range |
| RobotLimpieza.SampleDirty | robot_limpieza.py:54-58 | the dirty-position loop succeeds exactly when the draws reach the target number of distinct coordinates; it then holds exactly max(target, 0) of them, all drawn |
| RobotLimpieza.CellsFrom | robot_limpieza.py:60-64 | one cell per coordinate, dirty exactly on the sampled positions and clean elsewhere |
| RobotLimpieza.Init | robot_limpieza.py:39-71 | construction succeeds exactly when the draws supply enough distinct coordinates (never when the target exceeds width × height); the new model is running at time 0 with no movements, `initial_dirty_cells` and `final_dirty_cells` both hold `num_dirty_cells`, the grid holds max(num_dirty_cells, 0) dirty cells, all of them drawn coordinates, and every other cell is clean, and every agent is at (1, 1) |
| RobotLimpieza.InitCoversEveryDirtySet | robot_limpieza.py:54-64 | for every set of grid coordinates there are position draws for which the constructor, asked for that many dirty cells, dirties exactly that set |
| RobotLimpieza.Activate | robot_limpieza.py:20-27 | an activation either cleans the agent's dirty cell (dirty count down by one, the agent stays, no other cell changes) or leaves the cells alone and moves the agent to an adjacent in-bounds cell; other agents never move and no cell becomes dirty |
| RobotLimpieza.Sweep | robot_limpieza.py:111 | a sequential sweep keeps the grid well formed and agents in bounds, never re-dirties a cell, leaves unscheduled agents in place, and lowers the dirty count by at most the number of activations |
| RobotLimpieza.SweepMoveAccounting | robot_limpieza.py:20-27 | every activation does exactly one of the two things: the moves of a sweep plus the cells it cleaned equal the number of activations |
| RobotLimpieza.Finalise | robot_limpieza.py:100-109 | the terminal branch records the current dirty count as final and stops, changing no cell, agent, time, budget or movement count |
| RobotLimpieza.Advance | robot_limpieza.py:110-114 | the sweeping branch spends one unit of budget, adds one to time and `num_agents` to movements, and lowers the dirty count by at most the number of agents |
| RobotLimpieza.Step | robot_limpieza.py:95-121 | a step keeps the reachable-state invariant (movements = time × num_agents, final count fixed while running, stopped only in a terminal state), keeps time + budget constant, and never re-dirties a cell |
| RobotLimpieza.TerminalStepIsStable | robot_limpieza.py:100-109 | once the terminal condition holds it keeps holding, and further steps leave the state unchanged |
| RobotLimpieza.StepMovementsCountActivations | robot_limpieza.py:114 | for num_agents >= 0, the movement counter grows by the agents that moved plus the cells that were cleaned, not by the moves alone |
| RobotLimpieza.Run | robot_limpieza.py:95-114 | over any number of steps time + budget stays constant, at most max(T, 0) sweeps run from budget T, and the dirty count never rises |
| RobotLimpieza.RunFromTerminal | robot_limpieza.py:100-109 | from a terminal state every further run only records the final count and stops |
| RobotLimpieza.RunTerminates | robot_limpieza.py:100-112 | from budget T the model has stopped after max(T, 0) + 1 calls of `step` |
| RobotLimpieza.RunKeepsRunning | robot_limpieza.py:100-114 | while budget remains and the agents cannot yet have cleaned every dirty cell, every call sweeps and the model keeps running |
| RobotLimpieza.CountsPartition | robot_limpieza.py:80-93 | in every reachable state the clean and dirty counts add up to width × height |
| Servidor.DrawIndex | servidor.py:48-50 | the constructor's column-by-column walk gives each cell a draw position below width × height |
| Servidor.DrawIndexInjective | servidor.py:48-50 | two cells share a draw position exactly when they are the same cell: each cell makes its own `random.choice` call |
| Servidor.DrawIndexOnto | servidor.py:48-50 | every draw position below width × height is the position of an in-bounds cell, so the walk uses all width × height draws |
| Servidor.InitCoversEveryGrid | servidor.py:47-51 | for every assignment of dirty and clean to the cells of the torus, some coins make the constructor build exactly that grid |
| Servidor.Init | servidor.py:39-59 | every coordinate gets one cell holding the 0/1 value its coin chose, the clock starts at 0, and every agent is at (1, 1) |
| Servidor.Activate | servidor.py:22-35 | the agent's cell (taken before the move) becomes clean and no other cell changes, so the clean count rises by one exactly when that cell was dirty; the agent then moves one wrapped Moore step to an in-bounds cell different from where it was |
| Servidor.Sweep | servidor.py:63 | a sweep never re-dirties a cell, keeps agents in bounds, leaves unscheduled agents in place, and raises the clean count by at most the number of activations |
| Servidor.SweepMovesEveryAgent | servidor.py:31-35 | in a sweep without repeated ids every activated agent ends one wrapped Moore step from where it started |
| Servidor.Step | servidor.py:61-66 | below the time limit a step advances the clock by exactly one and every agent moves one wrapped Moore step; at the limit the state is unchanged; the clock never passes the limit |
| Servidor.NoEarlyStop | servidor.py:61-66 | with no dirty cell left a step below the limit still sweeps: cells stay as they are, every agent changes cell, the clock advances |
| Servidor.Run | servidor.py:61-66 | after n calls the clock reads min(start + n, time_limit) (or stays put if already at the limit), and the clean count never falls |
| Servidor.ClockFromInit | servidor.py:45-64 | from construction, n calls of `step` leave the clock at min(n, max(time_limit, 0)) |

## Left out

- Visualisation and server: `agent_portrayal`, `FinalStatsText.render` (including its displayed `movements * num_agents`), `CanvasGrid`, `ModularServer` and `server.launch`. They are presentation and HTTP plumbing.
- `DataCollector` and every `print`. They are logging only.
- Floating-point percentages and `percentage_dirt`. The model takes `num_dirty_cells = int(width * height * percentage_dirt)` as the integer input `numDirty`.
- The pseudo-random generator and its distribution. Draws are inputs, as described above.
- Which generator each draw comes from. The torus constructor draws its cell coins from the module-level `random` (servidor.py:3, 50), not from the model's own generator, and neither constructor takes a seed. The model treats every draw alike, as an input.
- Mesa's `MultiGrid` occupant lists and the `isinstance` filtering. The cell store is a separate total map, so "the first occupant is the cell" holds by construction.
- The order of Mesa's neighbourhood list. Mesa is not part of this model. Both neighbourhoods list the offsets with x varying slowest, and the pick index is arbitrary, so every neighbour is still a possible move.
- RobotLimpieza.Init: the dirty-position loop would keep drawing forever. The model reads a finite draw stream and returns None when the stream runs out. When `numDirty > width * height`, the source never terminates, and the model returns None for every stream.
- Grids with a side below 2. The source fails on them whenever at least one agent is placed, because every agent goes to (1, 1); with `num_agents <= 0` such a grid would construct and run, but the model leaves these grids out. Tori with a side below 3 are also left out, because there wrapped neighbours coincide with each other or with the agent's own cell.
- RobotLimpieza.StepMovementsCountActivations: stated for `num_agents >= 0` only. With a negative `num_agents` no robot exists, yet line 114 still adds `num_agents`, so `movements` falls on every sweep. `Step` and `Advance` state that case: the counter changes by `num_agents` whatever its sign.
- The `running` flag's use by the server loop. Only its value is modelled.

=== FILE: grid.dfy ===
/**
  The grid shared by both cleaning simulations: coordinates, the Moore
  neighbourhood (bounded and toroidal), the per-coordinate cell store and the
  counting of cells by state.

  Mesa keeps a list of occupants per coordinate and finds the cell among them
  by a type test; here the cell store is a separate total map from coordinate
  to the cell's `estado`, so "every coordinate holds exactly one cell" is a
  property of the map's key set.
*/
module Grid {

  /** A coordinate (x, y): x is the column, y the row. */
  type Coord = (int, int)

  datatype Option<T> = None | Some(value: T)

  predicate InBounds(c: Coord, width: int, height: int) {
    0 <= c.0 < width && 0 <= c.1 < height
  }

  /** Every coordinate of a width-by-height grid. */
  function Coords(width: int, height: int): (s: set<Coord>)
    ensures forall c :: c in s <==> InBounds(c, width, height)
  {
    set x, y | 0 <= x < width && 0 <= y < height :: (x, y)
  }

  function Column(x: int, height: int): (s: set<Coord>)
    ensures forall c :: c in s <==> c.0 == x && 0 <= c.1 < height
  {
    set y | 0 <= y < height :: (x, y)
  }

  lemma {:induction false} ColumnCard(x: int, height: nat)
    ensures |Column(x, height)| == height
  {
    if height == 0 {
      assert Column(x, 0) == {};
    } else {
      ColumnCard(x, height - 1);
      assert Column(x, height) == Column(x, height - 1) + {(x, height - 1)};
    }
  }

  /** A width-by-height grid has exactly width * height coordinates. */
  lemma {:induction false} CoordsCard(width: nat, height: nat)
    ensures |Coords(width, height)| == width * height
  {
    if width == 0 {
      assert Coords(0, height) == {};
    } else {
      var rest, col := Coords(width - 1, height), Column(width - 1, height);
      CoordsCard(width - 1, height);
      ColumnCard(width - 1, height);
      CoordsSplit(width, height);
      DisjointUnionCard(rest, col);
      MulPred(width, height);
    }
  }

  lemma CoordsSplit(width: int, height: int)
    requires width >= 1
    ensures Coords(width, height) == Coords(width - 1, height) + Column(width - 1, height)
    ensures Coords(width - 1, height) !! Column(width - 1, height)
  {
  }

  lemma MulPred(width: int, height: int)
    ensures width * height == (width - 1) * height + height
  {
  }

  lemma MulMono(a: int, b: int, c: int)
    requires 0 <= a <= b && c >= 0
    ensures a * c <= b * c
  {
  }

  lemma DisjointUnionCard<T>(a: set<T>, b: set<T>)
    requires a !! b
    ensures |a + b| == |a| + |b|
  {
  }

  lemma SubsetCard<T>(a: set<T>, b: set<T>)
    requires a <= b
    ensures |a| <= |b|
  {
    assert b == a + (b - a);
  }

  predicate Distinct<T(==)>(s: seq<T>) {
    forall i, j :: 0 <= i < j < |s| ==> s[i] != s[j]
  }

  /**
    Python's `random.choice(xs)` for the value k the generator drew: the
    generator's draw is kept abstract, reduced into the index range.
  */
  function Choice<T>(xs: seq<T>, k: nat): (r: T)
    requires |xs| > 0
    ensures r in xs
    ensures k < |xs| ==> r == xs[k]
  {
    xs[k % |xs|]
  }

  // ---------------------------------------------------------------------------
  // The Moore neighbourhood
  // ---------------------------------------------------------------------------

  /** The eight Moore offsets, centre excluded. */
  const MooreOffsets: seq<Coord> :=
    [(-1, -1), (-1, 0), (-1, 1), (0, -1), (0, 1), (1, -1), (1, 0), (1, 1)]

  /** q is one of the eight cells around p (p itself excluded). */
  predicate Adjacent(p: Coord, q: Coord) {
    p != q && -1 <= q.0 - p.0 <= 1 && -1 <= q.1 - p.1 <= 1
  }

  lemma MooreOffsetsAreAdjacent(d: Coord)
    ensures d in MooreOffsets <==> Adjacent((0, 0), d)
  {
  }

  lemma MooreOffsetsDistinct()
    ensures Distinct(MooreOffsets)
  {
  }

  function Shift(p: Coord, d: Coord): Coord {
    (p.0 + d.0, p.1 + d.1)
  }

  /** The shifts of p by `offsets` that stay inside the grid, in offset order. */
  function InBoundsShifts(p: Coord, offsets: seq<Coord>, width: int, height: int): seq<Coord> {
    if offsets == [] then []
    else
      var q := Shift(p, offsets[0]);
      (if InBounds(q, width, height) then [q] else []) + InBoundsShifts(p, offsets[1..], width, height)
  }

  lemma {:induction false} InBoundsShiftsMembers(p: Coord, offsets: seq<Coord>, width: int, height: int)
    ensures forall q :: (q in InBoundsShifts(p, offsets, width, height)
                         <==> InBounds(q, width, height) && (q.0 - p.0, q.1 - p.1) in offsets)
  {
    if offsets != [] {
      InBoundsShiftsMembers(p, offsets[1..], width, height);
      assert forall d :: d in offsets <==> d == offsets[0] || d in offsets[1..];
    }
  }

  lemma {:induction false} InBoundsShiftsDistinct(p: Coord, offsets: seq<Coord>, width: int, height: int)
    requires Distinct(offsets)
    ensures Distinct(InBoundsShifts(p, offsets, width, height))
  {
    if offsets != [] {
      var rest := InBoundsShifts(p, offsets[1..], width, height);
      InBoundsShiftsDistinct(p, offsets[1..], width, height);
      InBoundsShiftsMembers(p, offsets[1..], width, height);
      assert offsets[0] !in offsets[1..];
      assert Shift(p, offsets[0]) !in rest;
    }
  }

  /**
    `get_neighborhood(pos, moore=True, include_center=False)` on a grid
    without wrap-around: exactly the in-bounds cells adjacent to p, each once.
  */
  function BoundedNeighbourhood(p: Coord, width: int, height: int): (r: seq<Coord>)
    ensures forall q :: q in r <==> InBounds(q, width, height) && Adjacent(p, q)
    ensures Distinct(r)
    ensures InBounds(p, width, height) && width >= 2 && height >= 2 ==> |r| > 0
  {
    MooreOffsetsDistinct();
    InBoundsShiftsMembers(p, MooreOffsets, width, height);
    InBoundsShiftsDistinct(p, MooreOffsets, width, height);
    OffsetsFromAdjacent(p);
    if InBounds(p, width, height) && width >= 2 && height >= 2 then
      var q := (if p.0 + 1 < width then p.0 + 1 else p.0 - 1, p.1);
      assert q in InBoundsShifts(p, MooreOffsets, width, height);
      InBoundsShifts(p, MooreOffsets, width, height)
    else
      InBoundsShifts(p, MooreOffsets, width, height)
  }

  /** Seen from p, the cells adjacent to p are exactly those at a Moore offset. */
  lemma OffsetsFromAdjacent(p: Coord)
    ensures forall q: Coord :: (q.0 - p.0, q.1 - p.1) in MooreOffsets <==> Adjacent(p, q)
  {
    forall q: Coord
      ensures (q.0 - p.0, q.1 - p.1) in MooreOffsets <==> Adjacent(p, q)
    {
      MooreOffsetsAreAdjacent((q.0 - p.0, q.1 - p.1));
    }
  }

  /** Mesa's `torus_adj`: both axes taken modulo the grid size. */
  function Wrap(c: Coord, width: int, height: int): (r: Coord)
    requires width > 0 && height > 0
    ensures InBounds(r, width, height)
  {
    (c.0 % width, c.1 % height)
  }

  /** On an axis of length n, a value one step outside [0, n) wraps to the other end. */
  lemma WrapAxis(v: int, n: int)
    requires n >= 1 && -1 <= v <= n
    ensures v % n == if v < 0 then v + n else if v == n then 0 else v
  {
  }

  /** On a ring of at least three positions, the three steps -1, 0, 1 land on different positions. */
  lemma WrapAxisInjective(v: int, a: int, b: int, n: int)
    requires n >= 3 && 0 <= v < n && -1 <= a <= 1 && -1 <= b <= 1
    ensures (v + a) % n == (v + b) % n <==> a == b
  {
    WrapAxis(v + a, n);
    WrapAxis(v + b, n);
  }

  /** a and b are equal or neighbours on a ring of n positions. */
  predicate RingNear(a: int, b: int, n: int) {
    -1 <= b - a <= 1 || b - a == n - 1 || a - b == n - 1
  }

  /** q is one of the eight cells around p on a width-by-height torus. */
  predicate TorusAdjacent(p: Coord, q: Coord, width: int, height: int) {
    p != q && RingNear(p.0, q.0, width) && RingNear(p.1, q.1, height)
  }

  function WrappedShifts(p: Coord, width: int, height: int): seq<Coord>
    requires width >= 3 && height >= 3
  {
    seq(8, j requires 0 <= j < 8 => Wrap(Shift(p, MooreOffsets[j]), width, height))
  }

  lemma WrappedShiftAdjacent(p: Coord, width: int, height: int, j: int)
    requires width >= 3 && height >= 3 && InBounds(p, width, height) && 0 <= j < 8
    ensures TorusAdjacent(p, WrappedShifts(p, width, height)[j], width, height)
  {
    WrapAxis(p.0 + MooreOffsets[j].0, width);
    WrapAxis(p.1 + MooreOffsets[j].1, height);
  }

  lemma WrappedShiftsDistinct(p: Coord, width: int, height: int)
    requires width >= 3 && height >= 3 && InBounds(p, width, height)
    ensures Distinct(WrappedShifts(p, width, height))
  {
    var r := WrappedShifts(p, width, height);
    MooreOffsetsDistinct();
    forall i, j | 0 <= i < j < 8
      ensures r[i] != r[j]
    {
      WrapAxisInjective(p.0, MooreOffsets[i].0, MooreOffsets[j].0, width);
      WrapAxisInjective(p.1, MooreOffsets[i].1, MooreOffsets[j].1, height);
      assert MooreOffsets[i] != MooreOffsets[j];
    }
  }

  /**
    `get_neighborhood(pos, moore=True, include_center=False)` on a torus:
    the eight Moore offsets, each wrapped into the grid.
  */
  function TorusNeighbourhood(p: Coord, width: int, height: int): (r: seq<Coord>)
    requires width >= 3 && height >= 3 && InBounds(p, width, height)
    ensures |r| == 8
    ensures forall j :: 0 <= j < |r| ==> InBounds(r[j], width, height) && TorusAdjacent(p, r[j], width, height)
    ensures Distinct(r)
  {
    var r := WrappedShifts(p, width, height);
    WrappedShiftsDistinct(p, width, height);
    assert forall j :: 0 <= j < 8 ==> TorusAdjacent(p, r[j], width, height) by {
      forall j | 0 <= j < 8
        ensures TorusAdjacent(p, r[j], width, height)
      {
        WrappedShiftAdjacent(p, width, height, j);
      }
    }
    r
  }

  /** Every in-bounds cell torus-adjacent to p is in the wrapped neighbourhood. */
  lemma TorusNeighbourhoodComplete(p: Coord, q: Coord, width: int, height: int)
    requires width >= 3 && height >= 3 && InBounds(p, width, height)
    requires InBounds(q, width, height) && TorusAdjacent(p, q, width, height)
    ensures q in TorusNeighbourhood(p, width, height)
  {
    var dx := if -1 <= q.0 - p.0 <= 1 then q.0 - p.0 else if q.0 - p.0 == width - 1 then -1 else 1;
    var dy := if -1 <= q.1 - p.1 <= 1 then q.1 - p.1 else if q.1 - p.1 == height - 1 then -1 else 1;
    WrapAxis(p.0 + dx, width);
    WrapAxis(p.1 + dy, height);
    assert Wrap(Shift(p, (dx, dy)), width, height) == q;
    MooreOffsetsAreAdjacent((dx, dy));
    var j :| 0 <= j < 8 && MooreOffsets[j] == (dx, dy);
    assert TorusNeighbourhood(p, width, height)[j] == q;
  }

  // ---------------------------------------------------------------------------
  // The cell store and counting
  // ---------------------------------------------------------------------------

  /** The coordinates whose cell holds state v. */
  function CellsWith(cells: map<Coord, int>, v: int): (s: set<Coord>)
    ensures forall c :: c in s <==> c in cells && cells[c] == v
  {
    set c | c in cells && cells[c] == v
  }

  /** How many cells hold state v: the scans over range(width) x range(height). */
  function Count(cells: map<Coord, int>, v: int): nat {
    |CellsWith(cells, v)|
  }

  /** Agents and cells of a simulation. */
  datatype World = World(width: int, height: int, cells: map<Coord, int>, agents: seq<Coord>)

  /**
    One cell per coordinate, every cell in state 0 or 1, every agent inside
    the grid. Both simulations start their agents at (1, 1), so both sides are
    at least 2.
  */
  predicate WellFormed(w: World) {
    && w.width >= 2 && w.height >= 2
    && w.cells.Keys == Coords(w.width, w.height)
    && (forall c :: c in w.cells ==> w.cells[c] == 0 || w.cells[c] == 1)
    && (forall i :: 0 <= i < |w.agents| ==> InBounds(w.agents[i], w.width, w.height))
  }

  /** Cells in state 0 and cells in state 1 partition the grid. */
  lemma CountPartition(w: World)
    requires WellFormed(w)
    ensures Count(w.cells, 0) + Count(w.cells, 1) == w.width * w.height
  {
    assert w.cells.Keys == CellsWith(w.cells, 0) + CellsWith(w.cells, 1);
    assert CellsWith(w.cells, 0) !! CellsWith(w.cells, 1);
    CoordsCard(w.width, w.height);
  }

  /** A count never exceeds the number of cells of the grid. */
  lemma CountBound(w: World, v: int)
    requires WellFormed(w)
    ensures Count(w.cells, v) <= w.width * w.height
  {
    SubsetCard(CellsWith(w.cells, v), w.cells.Keys);
    CoordsCard(w.width, w.height);
  }

  /** Writing state a into the cell at p changes each count by at most one. */
  lemma CountAfterWrite(cells: map<Coord, int>, p: Coord, a: int, v: int)
    requires p in cells
    ensures Count(cells[p := a], v)
         == Count(cells, v) - (if cells[p] == v then 1 else 0) + (if a == v then 1 else 0)
  {
    var before := CellsWith(cells, v);
    var after := CellsWith(cells[p := a], v);
    assert after - {p} == before - {p};
    if cells[p] == v {
      assert before == (before - {p}) + {p};
    } else {
      assert before == before - {p};
    }
    if a == v {
      assert after == (after - {p}) + {p};
    } else {
      assert after == after - {p};
    }
  }

  /** Cells in state 0 are never written back to state 1 between `w` and `w'`. */
  predicate ZeroStays(w: World, w': World) {
    forall c :: c in w.cells && w.cells[c] == 0 ==> c in w'.cells && w'.cells[c] == 0
  }

  /** Cells in state 1 are never written back to state 0 between `w` and `w'`. */
  predicate OneStays(w: World, w': World) {
    forall c :: c in w.cells && w.cells[c] == 1 ==> c in w'.cells && w'.cells[c] == 1
  }

  /**
    max(n, 0): the length of `range(n)`, so the number of agents created for
    `num_agents = n`, and also the furthest a clock bounded by n can count.
  */
  function NonNeg(n: int): (r: nat)
    ensures r >= n && (n >= 0 ==> r == n)
  {
    if n < 0 then 0 else n
  }

  /** `numAgents` agents, all placed at (1, 1). */
  function StartAgents(numAgents: int): (r: seq<Coord>)
    ensures |r| == NonNeg(numAgents)
    ensures forall j :: 0 <= j < |r| ==> r[j] == (1, 1)
  {
    seq(NonNeg(numAgents), _ => (1, 1))
  }
}

=== FILE: robot_limpieza.dfy ===
/**
  The bounded-grid cleaning simulation (`RobotModel` with `RobotLimpieza`
  agents). A cell's `estado` is 1 when dirty and 0 when clean. An agent on a
  dirty cell cleans it; otherwise it moves to a random in-bounds Moore
  neighbour. The model runs sweeps until its step budget `time_ejection` is
  used up or no dirty cell is left.
*/
module RobotLimpieza {
  import opened Grid
  import opened Scheduler

  const DirtyState: int := 1
  const CleanState: int := 0

  /** The state of a `RobotModel`. */
  datatype RobotModel = RobotModel(
    numAgents: int,
    timeEjection: int,  // remaining step budget
    time: int,          // sweeps run so far
    movements: int,
    initialDirty: int,
    finalDirty: int,
    running: bool,
    world: World)

  // ---------------------------------------------------------------------------
  // Statistics
  // ---------------------------------------------------------------------------

  function DirtyCount(w: World): nat {
    Count(w.cells, DirtyState)
  }

  function CleanCount(w: World): nat {
    Count(w.cells, CleanState)
  }

  /** `count_dirty_cells`: zero exactly when every cell of the grid is clean. */
  function CountDirtyCells(m: RobotModel): (r: nat)
    requires WellFormed(m.world)
    ensures r <= m.world.width * m.world.height
    ensures r == 0 <==> forall c :: InBounds(c, m.world.width, m.world.height) ==> m.world.cells[c] == CleanState
  {
    CountBound(m.world, DirtyState);
    assert DirtyCount(m.world) == 0 <==> CellsWith(m.world.cells, DirtyState) == {};
    DirtyCount(m.world)
  }

  /** `count_clean_cells`: the cells not counted as dirty. */
  function CountCleanCells(m: RobotModel): (r: nat)
    requires WellFormed(m.world)
    ensures r + CountDirtyCells(m) == m.world.width * m.world.height
  {
    CountPartition(m.world);
    CleanCount(m.world)
  }

  // ---------------------------------------------------------------------------
  // Construction
  // ---------------------------------------------------------------------------

  /** `(randrange(width), randrange(height))` for the generator's draw d. */
  function DrawCoord(d: (nat, nat), width: int, height: int): (c: Coord)
    requires width >= 1 && height >= 1
    ensures InBounds(c, width, height)
    ensures d.0 < width && d.1 < height ==> c == (d.0, d.1)
  {
    (d.0 % width, d.1 % height)
  }

  /** The coordinates a stream of draws hits. */
  function Drawn(draws: seq<(nat, nat)>, width: int, height: int): (s: set<Coord>)
    requires width >= 1 && height >= 1
    ensures s <= Coords(width, height)
  {
    if draws == [] then {}
    else {DrawCoord(draws[0], width, height)} + Drawn(draws[1..], width, height)
  }

  /**
    The loop of robot_limpieza.py drawing dirty positions: draws coordinates
    and adds them to `acc` until it holds `target` of them. None when the
    stream ends first (the source would keep drawing).
  */
  function SampleDirty(width: int, height: int, target: int, draws: seq<(nat, nat)>, acc: set<Coord>)
    : (r: Option<set<Coord>>)
    requires width >= 1 && height >= 1 && acc <= Coords(width, height)
    ensures r.Some? <==> |acc + Drawn(draws, width, height)| >= target
    ensures r.Some? ==> acc <= r.value <= acc + Drawn(draws, width, height)
    ensures r.Some? ==> |r.value| == if target < |acc| then |acc| else target
    decreases draws
  {
    if |acc| >= target then
      SubsetCard(acc, acc + Drawn(draws, width, height));
      Some(acc)
    else if draws == [] then None
    else
      var c := DrawCoord(draws[0], width, height);
      assert acc + {c} + Drawn(draws[1..], width, height) == acc + Drawn(draws, width, height);
      assert |acc + {c}| <= |acc| + 1 by {
        if c in acc { assert acc + {c} == acc; }
      }
      SampleDirty(width, height, target, draws[1..], acc + {c})
  }

  /** The cell store: estado 1 on the dirty coordinates, 0 everywhere else. */
  function CellsFrom(dirty: set<Coord>, width: int, height: int): (cells: map<Coord, int>)
    requires dirty <= Coords(width, height)
    ensures cells.Keys == Coords(width, height)
    ensures CellsWith(cells, DirtyState) == dirty
    ensures forall c :: c in cells ==> cells[c] == DirtyState || cells[c] == CleanState
  {
    map c | c in Coords(width, height) :: if c in dirty then DirtyState else CleanState
  }

  /**
    `RobotModel.__init__` with `num_dirty_cells = int(width * height *
    percentage_dirt)` given as `numDirty` and the position draws as `draws`.
    None when the draws run out before `numDirty` distinct coordinates came up.
  */
  function Init(numAgents: int, width: int, height: int, timeEjection: int, numDirty: int, draws: seq<(nat, nat)>)
    : (r: Option<RobotModel>)
    requires width >= 2 && height >= 2
    ensures r.Some? <==> |Drawn(draws, width, height)| >= numDirty
    ensures numDirty > width * height ==> r.None?
    ensures r.Some? ==>
      var m := r.value;
      && Valid(m)
      && m.running && m.time == 0 && m.movements == 0
      && m.numAgents == numAgents && m.timeEjection == timeEjection
      && m.initialDirty == numDirty && m.finalDirty == numDirty
      && m.world.width == width && m.world.height == height
      && DirtyCount(m.world) == (if numDirty < 0 then 0 else numDirty)
      && CleanCount(m.world) == width * height - DirtyCount(m.world)
      && |m.world.agents| == NonNeg(numAgents)
      && (forall j :: 0 <= j < |m.world.agents| ==> m.world.agents[j] == (1, 1))
    ensures r.Some? ==> forall c :: c in r.value.world.cells && r.value.world.cells[c] == DirtyState ==>
      c in Drawn(draws, width, height)
  {
    assert {} + Drawn(draws, width, height) == Drawn(draws, width, height);
    CoordsCard(width, height);
    SubsetCard(Drawn(draws, width, height), Coords(width, height));
    match SampleDirty(width, height, numDirty, draws, {})
    case None => None
    case Some(dirty) =>
      var w := World(width, height, CellsFrom(dirty, width, height), StartAgents(numAgents));
      CountPartition(w);
      Some(RobotModel(numAgents, timeEjection, 0, 0, numDirty, numDirty, true, w))
  }

  /** A draw stream that hits exactly the coordinates of `s`, each once. */
  ghost function DrawsFor(s: set<Coord>, width: int, height: int): (ds: seq<(nat, nat)>)
    requires width >= 1 && height >= 1 && s <= Coords(width, height)
    ensures Drawn(ds, width, height) == s
    decreases |s|
  {
    if s == {} then []
    else
      var c :| c in s;
      var rest := DrawsFor(s - {c}, width, height);
      var ds := [(c.0, c.1)] + rest;
      assert ds[1..] == rest;
      ds
  }

  /**
    The constructor can produce every set of dirty cells: for any set of
    coordinates there are draws for which `Init`, asked for that many dirty
    cells, dirties exactly that set.
  */
  lemma InitCoversEveryDirtySet(numAgents: int, width: int, height: int, timeEjection: int, dirty: set<Coord>)
    requires width >= 2 && height >= 2 && dirty <= Coords(width, height)
    ensures exists draws: seq<(nat, nat)> ::
      (&& Init(numAgents, width, height, timeEjection, |dirty|, draws).Some?
       && CellsWith(Init(numAgents, width, height, timeEjection, |dirty|, draws).value.world.cells, DirtyState) == dirty)
  {
    var draws := DrawsFor(dirty, width, height);
    var m := Init(numAgents, width, height, timeEjection, |dirty|, draws).value;
    var got := CellsWith(m.world.cells, DirtyState);
    assert got <= dirty;
    assert dirty == got + (dirty - got);
    assert dirty - got == {};
  }

  // ---------------------------------------------------------------------------
  // Agents and the sweep
  // ---------------------------------------------------------------------------

  /**
    `RobotLimpieza.step` for agent i, with k the draw for `random.choice`:
    on a dirty cell the agent cleans it and stays; otherwise no cell changes
    and the agent moves to an adjacent in-bounds cell.
  */
  function Activate(w: World, i: nat, k: nat): (r: World)
    requires WellFormed(w) && i < |w.agents|
    ensures WellFormed(r) && r.width == w.width && r.height == w.height
    ensures |r.agents| == |w.agents|
    ensures forall j :: 0 <= j < |w.agents| && j != i ==> r.agents[j] == w.agents[j]
    ensures var p := w.agents[i];
      if w.cells[p] == DirtyState then
        && r.agents[i] == p
        && r.cells[p] == CleanState
        && (forall c :: c in w.cells && c != p ==> r.cells[c] == w.cells[c])
        && DirtyCount(r) == DirtyCount(w) - 1
      else
        && r.cells == w.cells
        && InBounds(r.agents[i], w.width, w.height)
        && Adjacent(p, r.agents[i])
    ensures ZeroStays(w, r)
  {
    var p := w.agents[i];
    if w.cells[p] == DirtyState then
      CountAfterWrite(w.cells, p, CleanState, DirtyState);
      w.(cells := w.cells[p := CleanState])
    else
      var q := Choice(BoundedNeighbourhood(p, w.width, w.height), k);
      w.(agents := w.agents[i := q])
  }

  /** Whether agent i moves (rather than cleans) when activated in w. */
  predicate Moves(w: World, i: nat)
    requires WellFormed(w) && i < |w.agents|
  {
    w.cells[w.agents[i]] != DirtyState
  }

  /**
    `RandomActivation.step`: the agents of `order` act one after another,
    each seeing the effects of the earlier ones; `picks[j]` is the draw for
    the j-th activation.
  */
  function Sweep(w: World, order: seq<nat>, picks: seq<nat>): (r: World)
    requires WellFormed(w) && ValidOrder(order, |w.agents|) && |picks| == |order|
    ensures WellFormed(r) && r.width == w.width && r.height == w.height
    ensures |r.agents| == |w.agents|
    ensures forall j :: 0 <= j < |w.agents| && j !in order ==> r.agents[j] == w.agents[j]
    ensures ZeroStays(w, r)
    ensures DirtyCount(r) <= DirtyCount(w) <= DirtyCount(r) + |order|
    decreases |order|
  {
    if order == [] then w
    else Sweep(Activate(w, order[0], picks[0]), order[1..], picks[1..])
  }

  /** The number of activations of a sweep that move an agent. */
  function SweepMoves(w: World, order: seq<nat>, picks: seq<nat>): nat
    requires WellFormed(w) && ValidOrder(order, |w.agents|) && |picks| == |order|
    decreases |order|
  {
    if order == [] then 0
    else
      (if Moves(w, order[0]) then 1 else 0)
      + SweepMoves(Activate(w, order[0], picks[0]), order[1..], picks[1..])
  }

  /**
    Every activation either moves its agent or cleans one cell: the moves of
    a sweep and the cells it cleans add up to the number of activations.
  */
  lemma {:induction false} SweepMoveAccounting(w: World, order: seq<nat>, picks: seq<nat>)
    requires WellFormed(w) && ValidOrder(order, |w.agents|) && |picks| == |order|
    ensures SweepMoves(w, order, picks) + (DirtyCount(w) - DirtyCount(Sweep(w, order, picks))) == |order|
    decreases |order|
  {
    if order != [] {
      SweepMoveAccounting(Activate(w, order[0], picks[0]), order[1..], picks[1..]);
    }
  }

  // ---------------------------------------------------------------------------
  // The controller
  // ---------------------------------------------------------------------------

  /** The condition under which `RobotModel.step` finalises instead of sweeping. */
  predicate Terminal(m: RobotModel)
    requires WellFormed(m.world)
  {
    m.timeEjection <= 0 || CountDirtyCells(m) == 0
  }

  /**
    The states `RobotModel` reaches: a well-formed grid with one agent per
    created robot, `movements` equal to `time * num_agents`, the final count
    untouched while running, and a stopped model stopped for good.
  */
  predicate Valid(m: RobotModel) {
    && WellFormed(m.world)
    && |m.world.agents| == NonNeg(m.numAgents)
    && m.time >= 0
    && m.movements == m.time * m.numAgents
    && (m.running ==> m.finalDirty == m.initialDirty)
    && (!m.running ==> Terminal(m) && m.finalDirty == DirtyCount(m.world))
  }

  /**
    The terminal branch of `RobotModel.step`: `calculate_final_dirty_cells`
    and `running = False`, nothing else.
  */
  function Finalise(m: RobotModel): (r: RobotModel)
    requires Valid(m) && Terminal(m)
    ensures Valid(r) && Terminal(r)
    ensures !r.running && r.finalDirty == DirtyCount(m.world)
    ensures r.world == m.world && r.numAgents == m.numAgents && r.initialDirty == m.initialDirty
    ensures r.time == m.time && r.timeEjection == m.timeEjection && r.movements == m.movements
  {
    m.(finalDirty := CountDirtyCells(m), running := false)
  }

  /** The sweeping branch of `RobotModel.step`: one sweep, then the counters. */
  function Advance(m: RobotModel, d: SweepDraws): (r: RobotModel)
    requires Valid(m) && !Terminal(m) && Fits(d, |m.world.agents|)
    ensures Valid(r)
    ensures r.numAgents == m.numAgents && r.initialDirty == m.initialDirty
    ensures r.running == m.running && r.finalDirty == m.finalDirty
    ensures r.world.width == m.world.width && r.world.height == m.world.height
    ensures ZeroStays(m.world, r.world)
    ensures r.time == m.time + 1 && r.timeEjection == m.timeEjection - 1
    ensures r.movements == m.movements + m.numAgents
    ensures DirtyCount(r.world) <= DirtyCount(m.world) <= DirtyCount(r.world) + NonNeg(m.numAgents)
  {
    var w := Sweep(m.world, d.order, d.picks);
    MulPred(m.time + 1, m.numAgents);
    m.(world := w, timeEjection := m.timeEjection - 1, time := m.time + 1,
       movements := m.movements + m.numAgents)
  }

  /**
    `RobotModel.step`. In a terminal state it records the final dirty count
    and stops, touching nothing else; otherwise it runs one sweep and spends
    one unit of budget.
  */
  function Step(m: RobotModel, d: SweepDraws): (r: RobotModel)
    requires Valid(m) && Fits(d, |m.world.agents|)
    ensures Valid(r)
    ensures r.numAgents == m.numAgents && r.initialDirty == m.initialDirty
    ensures r.time + r.timeEjection == m.time + m.timeEjection
    ensures r.world.width == m.world.width && r.world.height == m.world.height
    ensures ZeroStays(m.world, r.world)
    ensures Terminal(m) ==>
      && !r.running && r.finalDirty == DirtyCount(m.world)
      && r.world == m.world
      && r.time == m.time && r.timeEjection == m.timeEjection && r.movements == m.movements
    ensures !Terminal(m) ==>
      && r.running == m.running && r.finalDirty == m.finalDirty
      && r.time == m.time + 1 && r.timeEjection == m.timeEjection - 1
      && r.movements == m.movements + m.numAgents
      && DirtyCount(r.world) <= DirtyCount(m.world) <= DirtyCount(r.world) + NonNeg(m.numAgents)
  {
    if Terminal(m) then Finalise(m) else Advance(m, d)
  }

  /** Once terminal, a step changes nothing further: the stop is final and repeated steps are no-ops. */
  lemma TerminalStepIsStable(m: RobotModel, d: SweepDraws, d': SweepDraws)
    requires Valid(m) && Terminal(m) && Fits(d, |m.world.agents|) && Fits(d', |m.world.agents|)
    ensures Terminal(Step(m, d))
    ensures Step(Step(m, d), d') == Step(m, d)
  {
  }

  /**
    The movement counter counts activations, not moves: on a sweeping step
    it grows by the agents that moved plus the cells that were cleaned.
  */
  lemma StepMovementsCountActivations(m: RobotModel, d: SweepDraws)
    requires Valid(m) && Fits(d, |m.world.agents|) && !Terminal(m) && m.numAgents >= 0
    ensures Step(m, d).movements - m.movements
         == SweepMoves(m.world, d.order, d.picks) + (DirtyCount(m.world) - DirtyCount(Step(m, d).world))
  {
    SweepMoveAccounting(m.world, d.order, d.picks);
  }

  /** Calling `RobotModel.step` once per element of ds. */
  function Run(m: RobotModel, ds: seq<SweepDraws>): (r: RobotModel)
    requires Valid(m) && RunFits(ds, |m.world.agents|)
    ensures Valid(r)
    ensures r.numAgents == m.numAgents && r.initialDirty == m.initialDirty
    ensures r.world.width == m.world.width && r.world.height == m.world.height
    ensures r.time + r.timeEjection == m.time + m.timeEjection
    ensures m.time <= r.time <= m.time + NonNeg(m.timeEjection)
    ensures DirtyCount(r.world) <= DirtyCount(m.world)
    ensures ZeroStays(m.world, r.world)
    decreases |ds|
  {
    if ds == [] then m
    else Run(Step(m, ds[0]), ds[1..])
  }

  /** From a terminal state a run only records the final count and stops. */
  lemma {:induction false} RunFromTerminal(m: RobotModel, ds: seq<SweepDraws>)
    requires Valid(m) && Terminal(m) && RunFits(ds, |m.world.agents|) && |ds| > 0
    ensures Run(m, ds) == m.(finalDirty := DirtyCount(m.world), running := false)
    decreases |ds|
  {
    var m' := Step(m, ds[0]);
    if |ds| > 1 {
      RunFromTerminal(m', ds[1..]);
    }
  }

  /** Starting from budget T, the model has stopped after max(T, 0) + 1 calls of `step`. */
  lemma {:induction false} RunTerminates(m: RobotModel, ds: seq<SweepDraws>)
    requires Valid(m) && RunFits(ds, |m.world.agents|)
    requires |ds| > NonNeg(m.timeEjection)
    ensures !Run(m, ds).running
    decreases |ds|
  {
    if Terminal(m) {
      RunFromTerminal(m, ds);
    } else {
      RunTerminates(Step(m, ds[0]), ds[1..]);
    }
  }

  /**
    While the budget lasts and the agents cannot have cleaned every dirty
    cell, each call of `step` sweeps: after n such calls the model still
    runs and `time` has grown by n. In particular a budget of T takes T + 1
    calls to stop a model that stays dirty.
  */
  lemma {:induction false} RunKeepsRunning(m: RobotModel, ds: seq<SweepDraws>)
    requires Valid(m) && RunFits(ds, |m.world.agents|) && m.running
    requires |ds| <= m.timeEjection
    requires NonNeg(m.numAgents) * |ds| < DirtyCount(m.world)
    ensures Run(m, ds).running && Run(m, ds).time == m.time + |ds|
    decreases |ds|
  {
    if ds != [] {
      var a, n := NonNeg(m.numAgents), |ds| - 1;
      MulPred(n + 1, a);
      assert a * n + a < DirtyCount(m.world);
      var m' := Step(m, ds[0]);
      assert !Terminal(m);
      assert a * n < DirtyCount(m'.world);
      RunKeepsRunning(m', ds[1..]);
      assert Run(m, ds) == Run(m', ds[1..]);
    }
  }

  /** Clean and dirty cells partition the grid in every reachable state. */
  lemma CountsPartition(m: RobotModel)
    requires Valid(m)
    ensures CleanCount(m.world) + DirtyCount(m.world) == m.world.width * m.world.height
  {
    CountPartition(m.world);
  }
}

=== FILE: scheduler.dfy ===
/**
  Mesa's `RandomActivation`: each step shuffles the agent ids afresh and
  activates the agents one after another in that order. The shuffle is an
  input here: one permutation of the agent ids per sweep, together with the
  generator's draw for each activation's random choice.
*/
module Scheduler {
  import opened Grid

  /** The random input of one sweep: activation order and one draw per activation. */
  datatype SweepDraws = SweepDraws(order: seq<nat>, picks: seq<nat>)

  /** `order` lists the agent ids 0 .. n-1, each once. */
  predicate IsPermutation(order: seq<nat>, n: nat) {
    && |order| == n
    && (forall j :: 0 <= j < |order| ==> order[j] < n)
    && Distinct(order)
  }

  /** `d` is a possible random input for a sweep over n agents. */
  predicate Fits(d: SweepDraws, n: nat) {
    IsPermutation(d.order, n) && |d.picks| == n
  }

  /** The input of a run of sweeps fits n agents at every step. */
  predicate RunFits(ds: seq<SweepDraws>, n: nat) {
    forall t :: 0 <= t < |ds| ==> Fits(ds[t], n)
  }

  /** Every index in `order` names one of n agents. */
  predicate ValidOrder(order: seq<nat>, n: nat) {
    forall j :: 0 <= j < |order| ==> order[j] < n
  }

  function Elements(s: seq<nat>): (r: set<nat>)
    ensures forall x :: x in r <==> x in s
  {
    set x | x in s
  }

  lemma {:induction false} DistinctElementsCard(s: seq<nat>)
    requires Distinct(s)
    ensures |Elements(s)| == |s|
  {
    if s != [] {
      DistinctElementsCard(s[1..]);
      assert Elements(s) == Elements(s[1..]) + {s[0]};
      assert s[0] !in s[1..];
    } else {
      assert Elements(s) == {};
    }
  }

  /** A sweep over a permutation activates every agent: each id occurs in the order. */
  lemma EveryAgentActivated(order: seq<nat>, n: nat)
    requires IsPermutation(order, n)
    ensures forall i :: 0 <= i < n ==> i in order
  {
    var seen, all := Elements(order), Elements(InOrder(n));
    DistinctElementsCard(order);
    DistinctElementsCard(InOrder(n));
    forall x | x in seen
      ensures x in all
    {
      assert InOrder(n)[x] == x;
    }
    assert all == seen + (all - seen);
    assert |all - seen| == 0;
    forall i | 0 <= i < n
      ensures i in order
    {
      assert InOrder(n)[i] == i;
      assert i !in all - seen;
    }
  }

  /** The identity order activates agent 0, then 1, and so on. */
  function InOrder(n: nat): (r: seq<nat>)
    ensures IsPermutation(r, n)
    ensures forall j :: 0 <= j < n ==> r[j] == j
  {
    seq(n, j => j)
  }
}

=== FILE: servidor.dfy ===
/**
  The toroidal cleaning simulation (`CleaningModel` with `CleanerAgent`
  agents). Here a cell's `estado` is 0 when dirty and 1 when clean. An agent
  cleans its cell if it is dirty and then always moves to a Moore neighbour,
  wrapped around both edges. The model counts sweeps up to `time_limit` and
  never stops early.
*/
module Servidor {
  import opened Grid
  import opened Scheduler

  const DirtyState: int := 0
  const CleanState: int := 1

  /** The state of a `CleaningModel`. */
  datatype CleaningModel = CleaningModel(
    numAgents: int,
    timeLimit: int,
    currentTime: int,
    world: World)

  function DirtyCount(w: World): nat {
    Count(w.cells, DirtyState)
  }

  function CleanCount(w: World): nat {
    Count(w.cells, CleanState)
  }

  /** A well-formed world on a torus whose sides are at least 3. */
  predicate TorusWorld(w: World) {
    WellFormed(w) && w.width >= 3 && w.height >= 3
  }

  /** The states `CleaningModel` reaches. */
  predicate Valid(m: CleaningModel) {
    && TorusWorld(m.world)
    && |m.world.agents| == NonNeg(m.numAgents)
    && 0 <= m.currentTime <= NonNeg(m.timeLimit)
  }

  // ---------------------------------------------------------------------------
  // Construction
  // ---------------------------------------------------------------------------

  /** Position of cell (x, y) in the order the constructor's loops visit the grid. */
  function DrawIndex(c: Coord, width: int, height: int): (k: nat)
    requires InBounds(c, width, height)
    ensures k < width * height
  {
    MulMono(c.0, width - 1, height);
    assert (width - 1) * height + height == width * height;
    c.0 * height + c.1
  }

  /** Different cells take different draws: each cell has its own `random.choice` call. */
  lemma DrawIndexInjective(c: Coord, c': Coord, width: int, height: int)
    requires InBounds(c, width, height) && InBounds(c', width, height)
    ensures DrawIndex(c, width, height) == DrawIndex(c', width, height) <==> c == c'
  {
    if c.0 < c'.0 {
      MulMono(c.0 + 1, c'.0, height);
    } else if c'.0 < c.0 {
      MulMono(c'.0 + 1, c.0, height);
    }
  }

  /** Every draw position below width × height belongs to a cell: the walk uses every draw. */
  lemma DrawIndexOnto(k: int, width: int, height: int)
    requires width >= 1 && height >= 1 && 0 <= k < width * height
    ensures InBounds((k / height, k % height), width, height)
    ensures DrawIndex((k / height, k % height), width, height) == k
  {
  }

  /** The coin that makes cell k of the walk come out as `cells` says. */
  ghost function CoinFor(cells: map<Coord, int>, k: int, width: int, height: int): nat
    requires width >= 1 && height >= 1 && 0 <= k < width * height
    requires cells.Keys == Coords(width, height)
  {
    DrawIndexOnto(k, width, height);
    if cells[(k / height, k % height)] == CleanState then 1 else 0
  }

  /**
    The constructor can produce every grid of dirty and clean cells: for any
    0/1 store over the torus there are coins for which `Init` builds exactly it.
  */
  lemma InitCoversEveryGrid(numAgents: int, width: int, height: int, timeLimit: int, cells: map<Coord, int>)
    requires width >= 3 && height >= 3
    requires cells.Keys == Coords(width, height)
    requires forall c :: c in cells ==> cells[c] == DirtyState || cells[c] == CleanState
    ensures exists coins: seq<nat> ::
      (|coins| == width * height && Init(numAgents, width, height, timeLimit, coins).world.cells == cells)
  {
    var coins := seq(width * height, k requires 0 <= k < width * height => CoinFor(cells, k, width, height));
    var m := Init(numAgents, width, height, timeLimit, coins);
    forall c | c in cells
      ensures m.world.cells[c] == cells[c]
    {
      CoinForCell(cells, c, width, height);
    }
    assert m.world.cells.Keys == cells.Keys;
  }

  /** The coin chosen for a cell's own draw position reproduces that cell. */
  lemma CoinForCell(cells: map<Coord, int>, c: Coord, width: int, height: int)
    requires width >= 1 && height >= 1 && InBounds(c, width, height)
    requires cells.Keys == Coords(width, height)
    requires cells[c] == DirtyState || cells[c] == CleanState
    ensures Choice([DirtyState, CleanState], CoinFor(cells, DrawIndex(c, width, height), width, height)) == cells[c]
  {
    var k := DrawIndex(c, width, height);
    DrawIndexOnto(k, width, height);
    DrawIndexInjective(c, (k / height, k % height), width, height);
  }

  /**
    `CleaningModel.__init__`: every coordinate gets one cell whose `estado`
    is `random.choice([0, 1])` for the coordinate's draw in `coins` (drawn
    column by column), and every agent starts at (1, 1).
  */
  function Init(numAgents: int, width: int, height: int, timeLimit: int, coins: seq<nat>): (m: CleaningModel)
    requires width >= 3 && height >= 3 && |coins| == width * height
    ensures Valid(m)
    ensures m.currentTime == 0 && m.timeLimit == timeLimit && m.numAgents == numAgents
    ensures m.world.width == width && m.world.height == height
    ensures forall c :: InBounds(c, width, height) ==>
      m.world.cells[c] == Choice([DirtyState, CleanState], coins[DrawIndex(c, width, height)])
    ensures CleanCount(m.world) + DirtyCount(m.world) == width * height
    ensures |m.world.agents| == NonNeg(numAgents)
    ensures forall j :: 0 <= j < |m.world.agents| ==> m.world.agents[j] == (1, 1)
  {
    var cells := map c | c in Coords(width, height) ::
      Choice([DirtyState, CleanState], coins[DrawIndex(c, width, height)]);
    var w := World(width, height, cells, StartAgents(numAgents));
    CountPartition(w);
    CleaningModel(numAgents, timeLimit, 0, w)
  }

  // ---------------------------------------------------------------------------
  // Agents and the sweep
  // ---------------------------------------------------------------------------

  /**
    `CleanerAgent.step` for agent i, with k the draw for `random.choice`:
    the cell under the agent becomes clean (only it can change), then the
    agent moves one wrapped Moore step.
  */
  function Activate(w: World, i: nat, k: nat): (r: World)
    requires TorusWorld(w) && i < |w.agents|
    ensures TorusWorld(r) && r.width == w.width && r.height == w.height
    ensures |r.agents| == |w.agents|
    ensures forall j :: 0 <= j < |w.agents| && j != i ==> r.agents[j] == w.agents[j]
    ensures var p := w.agents[i];
      && r.cells[p] == CleanState
      && (forall c :: c in w.cells && c != p ==> r.cells[c] == w.cells[c])
      && InBounds(r.agents[i], w.width, w.height)
      && TorusAdjacent(p, r.agents[i], w.width, w.height)
    ensures CleanCount(r) == CleanCount(w) + (if w.cells[w.agents[i]] == DirtyState then 1 else 0)
    ensures OneStays(w, r)
  {
    var p := w.agents[i];
    var cells := if w.cells[p] == DirtyState then w.cells[p := CleanState] else w.cells;
    CountAfterWrite(w.cells, p, CleanState, CleanState);
    assert w.cells[p] == CleanState ==> w.cells[p := CleanState] == w.cells;
    var q := Choice(TorusNeighbourhood(p, w.width, w.height), k);
    w.(cells := cells, agents := w.agents[i := q])
  }

  /**
    `RandomActivation.step`: the agents of `order` act one after another,
    each seeing the effects of the earlier ones; `picks[j]` is the draw for
    the j-th activation.
  */
  function Sweep(w: World, order: seq<nat>, picks: seq<nat>): (r: World)
    requires TorusWorld(w) && ValidOrder(order, |w.agents|) && |picks| == |order|
    ensures TorusWorld(r) && r.width == w.width && r.height == w.height
    ensures |r.agents| == |w.agents|
    ensures forall j :: 0 <= j < |w.agents| && j !in order ==> r.agents[j] == w.agents[j]
    ensures OneStays(w, r)
    ensures CleanCount(w) <= CleanCount(r) <= CleanCount(w) + |order|
    decreases |order|
  {
    if order == [] then w
    else Sweep(Activate(w, order[0], picks[0]), order[1..], picks[1..])
  }

  /** In a sweep without repeats, every activated agent ends one wrapped Moore step from where it began. */
  lemma {:induction false} SweepMovesEveryAgent(w: World, order: seq<nat>, picks: seq<nat>)
    requires TorusWorld(w) && ValidOrder(order, |w.agents|) && |picks| == |order| && Distinct(order)
    ensures forall j :: 0 <= j < |w.agents| && j in order ==>
      TorusAdjacent(w.agents[j], Sweep(w, order, picks).agents[j], w.width, w.height)
    decreases |order|
  {
    if order != [] {
      var w' := Activate(w, order[0], picks[0]);
      var rest := order[1..];
      assert Distinct(rest);
      SweepMovesEveryAgent(w', rest, picks[1..]);
      forall j | 0 <= j < |w.agents| && j in order
        ensures TorusAdjacent(w.agents[j], Sweep(w, order, picks).agents[j], w.width, w.height)
      {
        if j == order[0] {
          assert j !in rest;
        } else {
          assert j in rest;
        }
      }
    }
  }

  // ---------------------------------------------------------------------------
  // The controller
  // ---------------------------------------------------------------------------

  /**
    `CleaningModel.step`: below the time limit one sweep runs and the clock
    advances by one, whatever the cells hold; at the limit nothing changes.
  */
  function Step(m: CleaningModel, d: SweepDraws): (r: CleaningModel)
    requires Valid(m) && Fits(d, |m.world.agents|)
    ensures Valid(r)
    ensures r.numAgents == m.numAgents && r.timeLimit == m.timeLimit
    ensures OneStays(m.world, r.world)
    ensures m.currentTime >= m.timeLimit ==> r == m
    ensures m.currentTime < m.timeLimit ==>
      && r.currentTime == m.currentTime + 1
      && CleanCount(m.world) <= CleanCount(r.world) <= CleanCount(m.world) + NonNeg(m.numAgents)
      && forall j :: 0 <= j < |m.world.agents| ==>
           TorusAdjacent(m.world.agents[j], r.world.agents[j], m.world.width, m.world.height)
  {
    if m.currentTime < m.timeLimit then
      var w := Sweep(m.world, d.order, d.picks);
      SweepMovesEveryAgent(m.world, d.order, d.picks);
      EveryAgentActivated(d.order, |m.world.agents|);
      m.(world := w, currentTime := m.currentTime + 1)
    else
      m
  }

  /**
    No early stop: below the time limit a step sweeps even when no cell is
    dirty; every agent moves to a different cell and the clock advances.
  */
  lemma NoEarlyStop(m: CleaningModel, d: SweepDraws)
    requires Valid(m) && Fits(d, |m.world.agents|)
    requires m.currentTime < m.timeLimit && DirtyCount(m.world) == 0
    ensures Step(m, d).currentTime == m.currentTime + 1
    ensures Step(m, d).world.cells == m.world.cells
    ensures forall j :: 0 <= j < |m.world.agents| ==> Step(m, d).world.agents[j] != m.world.agents[j]
  {
  }

  function Min(a: int, b: int): int {
    if a < b then a else b
  }

  /**
    Calling `CleaningModel.step` once per element of ds: the clock counts the
    steps up to the time limit and then stays put.
  */
  function Run(m: CleaningModel, ds: seq<SweepDraws>): (r: CleaningModel)
    requires Valid(m) && RunFits(ds, |m.world.agents|)
    ensures Valid(r)
    ensures r.numAgents == m.numAgents && r.timeLimit == m.timeLimit
    ensures r.currentTime
         == if m.currentTime >= m.timeLimit then m.currentTime else Min(m.currentTime + |ds|, m.timeLimit)
    ensures OneStays(m.world, r.world)
    ensures CleanCount(m.world) <= CleanCount(r.world)
    decreases |ds|
  {
    if ds == [] then m
    else Run(Step(m, ds[0]), ds[1..])
  }

  /** From construction, n calls of `step` leave the clock at min(n, time_limit), never past the limit. */
  lemma ClockFromInit(numAgents: int, width: int, height: int, timeLimit: int, coins: seq<nat>, ds: seq<SweepDraws>)
    requires width >= 3 && height >= 3 && |coins| == width * height
    requires RunFits(ds, NonNeg(numAgents))
    ensures Run(Init(numAgents, width, height, timeLimit, coins), ds).currentTime == Min(|ds|, NonNeg(timeLimit))
  {
  }
}
